=== FILE: README.md ===
# Tree copy and tree fingerprint of cdktf's private `fs` helpers

This project is a Dafny model of the two tree walks in
`packages/cdktf/lib/private/fs.ts` of the CDK for Terraform:

- `copySync(src, dest)` copies a directory tree depth-first. For every
  directory it runs `mkdirSync(…, { recursive: true })` on the destination and
  then visits the `readdirSync` listing in order. Every regular file is copied
  with `copyFileSync`, which overwrites. Anything that is neither a file nor a
  directory is skipped.
- `hashPath(src)` feeds the bytes of every regular file, in the same
  depth-first listing order, into one MD5 context. It then hex-encodes the
  digest, keeps the first `HASH_LEN = 32` characters and upper-cases them.

The filesystem is an immutable tree (`FsTree.Node`):
`File(bytes) | Dir(entries) | Other`. A directory's `entries` keep the order
the listing returns. `Other` is whatever `statSync` reports as neither a file
nor a directory, such as sockets, fifos and devices. Symbolic links are seen
through, as `statSync` does.

Files and modules:

- `wrappers.dfy` (`Wrappers`): `Option`.
- `fstree.dfy` (`FsTree`): nodes, listings (`Find`, `Put`), relative paths
  (`Lookup`), well-formedness (distinct names), and the size measure that every
  walk decreases.
- `copy.dfy` (`Copy`): `CopySync` / `WalkSubfolder` / `CopyItem` /
  `CopyEntries` model `copySync` / `walkSubfolder` / `copyItem` / the
  `forEach`. The walk is fail-fast and nothing is rolled back. So every walk
  returns a `Partial`: the destination state reached, plus the error that
  stopped it, if any. The errors are `AlreadyExists` (EEXIST from `mkdirSync`),
  `NotADirectory` (ENOTDIR from `readdirSync`) and `IsADirectory` (EISDIR from
  `copyFileSync`). Each error carries the relative path of the failing call.
- `hash.dfy` (`Hash`): `Flatten` (the bytes `hashRecursion` feeds), `ToHex`,
  `Finish` and `HashPath`. MD5 is a parameter `md5: seq<byte> -> Digest` that
  returns 16 bytes.
- `copyhash.dfy` (`CopyHash`): the two walks together.

The source tree is only ever an input, so a copy cannot change it. Three
behaviours of `fs.ts` worth knowing:

- A source root that is not a directory is not copied as a file. The walk first
  creates the destination directory and then fails in `readdirSync`.
- Nothing is sorted: both walks use the listing order.
- `a.txt` at the root and `sub/a.txt` give the same fingerprint, because only
  contents are hashed (`Hash.HashSingleEntry`).

## Model

| member | source | states |
|---|---|---|
| Copy.CopySync | packages/cdktf/lib/private/fs.ts:10-29 | the destination root ends up a directory exactly when nothing but a directory was there, and a copy that succeeds had a directory as its source root; the full behaviour is stated by Copy.CopySyncSucceedsIff, Copy.CopySyncIdempotent, Copy.CopySyncIntoNothing and the path lemmas below |
| Copy.WalkSubfolder | packages/cdktf/lib/private/fs.ts:22-26 | `mkdirSync` leaves a directory unless a non-directory was already there, and the walk succeeds only for a source directory; the rest is stated by Copy.WalkPaths, Copy.WalkError, Copy.WalkIdempotent and Copy.WalkFresh |
| Copy.CopyEntries | packages/cdktf/lib/private/fs.ts:25 | the `forEach` leaves at least as many destination entries as there were and adds at most one per source child; that no name is lost is Copy.CopyEntriesKeeps, and what each entry becomes is stated by Copy.CopyEntriesSuccess, Copy.CopyEntriesLocal and Copy.CopyEntriesError |
| Copy.CopyEntriesKeeps | packages/cdktf/lib/private/fs.ts:25 | whatever the outcome, every name the destination listing had is still there after the `forEach` |
| Copy.CopySyncCopiesFiles | packages/cdktf/lib/private/fs.ts:11-16 | after a successful copy, every regular file of the source is at the same relative path in the destination with the same bytes, overwriting a regular file that was there (a destination special file is discussed under "Left out") |
| Copy.CopySyncCreatesDirs | packages/cdktf/lib/private/fs.ts:17-28 | after a successful copy, the destination root "." and every directory of the source are directories in the destination |
| Copy.CopySyncLeavesRest | packages/cdktf/lib/private/fs.ts:10-29 | nothing is deleted: at every path where the source has neither a regular file nor a directory, the destination after the copy equals the destination before it, special files of the source included |
| Copy.CopySyncSucceedsIff | packages/cdktf/lib/private/fs.ts:13-25 | the copy succeeds if and only if the root is a directory, no source directory meets a destination non-directory and no source file meets a destination directory; a reported error names such a conflict, with its errno and path |
| Copy.CopySyncIdempotent | packages/cdktf/lib/private/fs.ts:14-24 | copying the same source onto the result of a copy changes nothing and ends with the same outcome, error included |
| Copy.CopySyncIntoNothing | packages/cdktf/lib/private/fs.ts:10-29 | copying a directory where no destination exists yields the source tree in the same listing order, minus its special files, and no error |
| Copy.CopySyncReproduces | packages/cdktf/lib/private/fs.ts:10-29 | a directory with no special files below it is copied into an absent destination exactly as it is |
| Copy.WalkPaths | packages/cdktf/lib/private/fs.ts:11-26 | for one walked directory and any relative path below it: files arrive byte-identical, directories arrive as directories, and every other path is left as it was |
| Copy.WalkError | packages/cdktf/lib/private/fs.ts:11-26 | an error from walking a directory has a path under that directory, and at that path the two trees conflict in the way the errno says |
| Copy.WalkEntriesError | packages/cdktf/lib/private/fs.ts:25 | an error from the listing's `forEach` has a path below the walked directory and names a conflict between the two trees there |
| Copy.CopyItemError | packages/cdktf/lib/private/fs.ts:11-20 | an error from copying one entry has a path at or below that entry, is never ENOTDIR, is EEXIST only for a source directory, and names a conflict between the two trees there |
| Copy.WalkSuccessNoConflict | packages/cdktf/lib/private/fs.ts:11-26 | a walk that succeeded had no conflict at any path below it |
| Copy.WalkIdempotent | packages/cdktf/lib/private/fs.ts:22-26 | walking a directory a second time onto its own result gives the same result and error |
| Copy.CopyItemIdempotent | packages/cdktf/lib/private/fs.ts:11-20 | copying one entry a second time onto its own result gives the same entry and error |
| Copy.CopyEntriesIdempotent | packages/cdktf/lib/private/fs.ts:25 | running the listing's `forEach` a second time onto its own result gives the same listing and error |
| Copy.CopyEntriesSuccess | packages/cdktf/lib/private/fs.ts:25 | after a successful `forEach`, each destination entry is what copying the source entry with that name onto it gives, and entries the source does not name are unchanged |
| Copy.CopyEntriesLocal | packages/cdktf/lib/private/fs.ts:25 | whatever the outcome, the `forEach` touches only destination entries whose names the source listing has |
| Copy.CopyEntriesError | packages/cdktf/lib/private/fs.ts:25 | a failed `forEach` failed at one child, which was copied onto the destination entry of that name as it was before the walk |
| Copy.CopyItem | packages/cdktf/lib/private/fs.ts:11-20 | copying one entry never removes a destination entry |
| Copy.Prune | packages/cdktf/lib/private/fs.ts:14-19 | the tree a fresh copy produces is a directory exactly when the source is one, equals the source when that is a file or a special file, and has no special file below a directory |
| Copy.WalkFresh | packages/cdktf/lib/private/fs.ts:22-26 | walking a directory onto nothing yields the pruned directory and no error |
| Copy.CopyEntriesFresh | packages/cdktf/lib/private/fs.ts:25 | copying a listing whose names are all new to the destination appends the pruned listing, in order |
| Hash.HashPath | packages/cdktf/lib/private/fs.ts:53-72 | the fingerprint has exactly `HASH_LEN` = 32 characters, all in `0-9A-F`, and reads back as the whole 16-byte digest of the hashed bytes |
| Hash.Finish | packages/cdktf/lib/private/fs.ts:68-71 | hex, cut to 32, upper-case: the length is the smaller of twice the digest length and 32, and every character is in `0-9A-F` |
| Hash.Flatten | packages/cdktf/lib/private/fs.ts:56-65 | no contract of its own; the bytes it feeds are stated by Hash.HashInputIsFileContents, Hash.HashIgnoresNames and CopyHash.HashAfterFreshCopy |
| Hash.FlattenEntries | packages/cdktf/lib/private/fs.ts:57-63 | no contract of its own; Hash.FlattenEntriesIsContents states that it concatenates the contents of the listing's files in listing order |
| Hash.UpperChar | packages/cdktf/lib/private/fs.ts:71 | a lower-case letter becomes the same letter in upper case, every other character is unchanged, and a lower-case hex digit becomes the upper-case hex digit of the same value |
| Hash.ToUpper | packages/cdktf/lib/private/fs.ts:71 | upper-casing the hex encoding keeps its length and turns every lower-case hex digit into an upper-case digit that reads back as the same nibble; Hash.DecodeUpperHex and Hash.FinishDecodes show that the whole upper-cased encoding reads back as the digest |
| Hash.ToHex | packages/cdktf/lib/private/fs.ts:69 | the hex encoding has two characters per byte, all in `0-9a-f` |
| Hash.FinishDecodes | packages/cdktf/lib/private/fs.ts:68-71 | the fingerprint spells exactly the first 16 bytes of the digest, so truncating to 32 characters loses nothing of an MD5 digest |
| Hash.HashInputIsFileContents | packages/cdktf/lib/private/fs.ts:56-65 | the hashed bytes are the contents of the tree's regular files, concatenated in depth-first listing order; the enumerated paths are exactly the paths holding regular files, each listed once, so every file's bytes are fed exactly once |
| Hash.FilesDistinct | packages/cdktf/lib/private/fs.ts:56-65 | in a tree whose directories have distinct names, no path is enumerated twice |
| Hash.FilesComplete | packages/cdktf/lib/private/fs.ts:56-65 | every regular file below the root is among the files whose contents are hashed |
| Hash.FilesSound | packages/cdktf/lib/private/fs.ts:56-65 | every enumerated path holds a regular file with the enumerated bytes |
| Hash.HashIgnoresNames | packages/cdktf/lib/private/fs.ts:56-67 | two trees that differ only in names, with the same kinds, bytes and listing order, have the same fingerprint |
| Hash.HashOfNothing | packages/cdktf/lib/private/fs.ts:57-64 | an empty directory, an empty file and a special file have the same fingerprint, that of no input |
| Hash.HashSingleEntry | packages/cdktf/lib/private/fs.ts:57-64 | a directory holding one entry hashes like that entry under any name; for a single file, the fingerprint depends only on its bytes |
| CopyHash.HashAfterFreshCopy | packages/cdktf/lib/private/fs.ts:10-72 | fingerprinting a fresh copy of a directory gives the fingerprint of the source |

## Left out

- `archiveSync` (`fs.ts:31-51`) is not modelled. It only probes for
  `tar.exe`/`zip`, calls `process.exit(1)` if the tool is missing, and runs an
  external archiver through a shell command, so its behaviour is external
  processes and platform detection.
- MD5 itself is a library call. It is a parameter returning 16 bytes, so no
  property that depends on the digest algorithm can be stated. Examples are
  "changing one byte changes the fingerprint" and "reordering a listing changes
  the fingerprint".
- I/O failures are not modelled: a missing or unreadable path, permissions, a
  dangling symbolic link, a full disk. In the source, which is only read,
  symbolic links are modelled as what they point to. A finite tree cannot
  represent a link to an ancestor directory, so a cyclic source is not
  modelled. In `fs.ts` such a link makes both walks recurse until `statSync`
  throws, and `copySync` has nested directories in the destination by then.
  Links in the destination are covered below.
  Permissions and timestamps are not modelled.
- The source and the destination are separate trees. Copying a tree into
  itself or into one of its own subdirectories is not modelled.
- The destination tree is rooted at `dest`. Creating missing ancestors of
  `dest` is outside the model.
- Entries created in a destination directory are appended to its listing. Real
  listing order there is up to the filesystem.
- Copy.CopySyncSucceedsIff, Copy.CopySyncCopiesFiles: a source file copied
  onto a special file in the destination is modelled as replacing it with the
  regular file, with no error. In `fs.ts` `copyFileSync` opens the special file
  for writing instead. A socket fails to open (ENXIO), a FIFO blocks until a
  reader appears, and a device receives the bytes. In no case does a regular
  file take its place. So the "if" half of Copy.CopySyncSucceedsIff, and
  Copy.CopySyncCopiesFiles where a special file was there, hold only when no
  source file meets a special file in the destination.
- Names are compared exactly, as on a case-sensitive filesystem such as the
  usual Linux ones. A case-folding or Unicode-normalizing destination (the
  defaults on macOS and Windows) is not modelled. There `copyFileSync` of
  `a.txt` overwrites an existing `A.TXT` in place, while the model adds a
  separate `a.txt` entry. So `Copy.CopySyncLeavesRest` and `Copy.WalkPaths`
  hold for such destinations only when no two names differ just by case or
  normalization.
- Copy.CopySyncLeavesRest, Copy.WalkPaths: a symbolic link in the destination
  is modelled as a separate copy of its target. Both `copyFileSync` and
  `mkdirSync` follow such a link, so a write can reach another path inside the
  destination, or a path outside it, and that is not modelled. The two lemmas
  therefore hold only for destinations where no two paths reach the same file
  or directory and no link leads out of the destination.
- `toUpperCase` is modelled on ASCII letters only, since it only ever sees hex
  digits.
- Copy.CopySyncLeavesRest, Copy.CopySyncCopiesFiles, Copy.CopySyncCreatesDirs:
  these are stated for a copy that succeeds. After a failure, the partial
  destination is described by Copy.CopySyncSucceedsIff (which conflict stopped
  it), Copy.CopyEntriesLocal (what it can have touched) and
  Copy.CopySyncIdempotent (repeating it changes nothing).

=== FILE: copy.dfy ===
/**
 The recursive copy `copySync(src, dest)` of `packages/cdktf/lib/private/fs.ts`,
 as a pure function from the source tree and the destination as it stands
 beforehand (possibly absent) to the destination afterwards.

 The walk is fail-fast and rolls nothing back, so every walk returns the
 state it reached together with the error that stopped it, if any. The
 source tree is an input only: nothing in this module can change it.
 */
module Copy {
  import opened Wrappers
  import opened FsTree

  /** Why a walk stopped, named after the errno the filesystem call throws. */
  datatype ErrorCode =
    | AlreadyExists  // EEXIST: `mkdirSync(…, {recursive: true})` where a non-directory exists
    | NotADirectory  // ENOTDIR: `readdirSync` of a source root that is not a directory
    | IsADirectory   // EISDIR: `copyFileSync` onto an existing directory

  /** An error and the relative path of the call that threw it. */
  datatype FsError = FsError(code: ErrorCode, path: Path)

  /** The state a walk reached, and the error that aborted it if there was one. */
  datatype Partial<T> = Partial(value: T, err: Option<FsError>)

  /* ---------------- the walk ---------------- */

  /** `copySync(src, dest)`: walk the source from its root ".". */
  function CopySync(src: Node, dest: Option<Node>): (r: Partial<Node>)
    ensures r.value.Dir? <==> !IsNonDir(dest)
    ensures r.err.None? ==> src.Dir? && r.value.Dir?
  {
    WalkSubfolder(src, dest, [])
  }

  /**
   `walkSubfolder(p)`: make the destination directory (a no-op when one is
   already there), then copy the source directory's children in listing order.
   `src` and `dest` are the nodes at `p` under the two roots.
   */
  function WalkSubfolder(src: Node, dest: Option<Node>, at: Path): (r: Partial<Node>)
    ensures r.value.Dir? <==> !IsNonDir(dest)
    ensures r.err.None? ==> src.Dir? && r.value.Dir?
    decreases Size(src), 0
  {
    if IsNonDir(dest) then Partial(dest.value, Some(FsError(AlreadyExists, at)))
    else
      var existing := if dest.Some? then dest.value.entries else [];
      match src
      case Dir(es) =>
        var r := CopyEntries(es, existing, at);
        Partial(Dir(r.value), r.err)
      case _ => Partial(Dir(existing), Some(FsError(NotADirectory, at)))
  }

  /**
   `copyItem(p)` for one child: a regular file overwrites whatever non-directory
   is at the same path, a directory is walked, anything else is skipped.
   The result is the destination's entry at `p` afterwards (`None`: still none).
   */
  function CopyItem(src: Node, dest: Option<Node>, at: Path): (r: Partial<Option<Node>>)
    ensures r.value.None? ==> dest.None?
    decreases Size(src), 1
  {
    match src
    case File(_) =>
      if IsDir(dest) then Partial(dest, Some(FsError(IsADirectory, at)))
      else Partial(Some(src), None)
    case Dir(_) =>
      var w := WalkSubfolder(src, dest, at);
      Partial(Some(w.value), w.err)
    case Other => Partial(dest, None)
  }

  /** The destination listing with the entry `name` set to `o`, if there is one. */
  function Store(es: Listing, name: Name, o: Option<Node>): Listing
  {
    if o.Some? then Put(es, name, o.value) else es
  }

  /** The `forEach` of `walkSubfolder`: the children in listing order, stopping at the first error. */
  function CopyEntries(es: Listing, dest: Listing, at: Path): (r: Partial<Listing>)
    ensures |dest| <= |r.value| <= |dest| + |es|
    decreases EntriesSize(es), 2
  {
    if es == [] then Partial(dest, None)
    else
      EntriesSizeCons(es);
      var name := es[0].0;
      var item := CopyItem(es[0].1, Find(dest, name), at + [name]);
      var next := Store(dest, name, item.value);
      if item.err.Some? then Partial(next, item.err)
      else CopyEntries(es[1..], next, at)
  }

  /* ---------------- when a copy fails ---------------- */

  /**
   The filesystem state that makes a call of the walk throw `code` at the
   relative path `q`, stated over the two trees as they were beforehand.
   */
  predicate Conflict(src: Node, dest: Option<Node>, code: ErrorCode, q: Path)
  {
    var s := Lookup(src, q);
    var d := LookupIn(dest, q);
    match code
    case AlreadyExists => (q == [] || IsDir(s)) && IsNonDir(d)
    case NotADirectory => q == [] && !src.Dir? && !IsNonDir(d)
    case IsADirectory => IsFile(s) && IsDir(d)
  }

  ghost predicate NoConflict(src: Node, dest: Option<Node>)
  {
    forall code, q :: !Conflict(src, dest, code, q)
  }

  /** What a copy into an absent destination produces: the source without its special files. */
  function Prune(n: Node): (r: Node)
    ensures n.Dir? <==> r.Dir?
    ensures !n.Dir? ==> r == n
    ensures Regular(r)
    decreases Size(n), 0
  {
    match n
    case Dir(es) => Dir(PruneEntries(es))
    case _ => n
  }

  function PruneEntries(es: Listing): (r: Listing)
    ensures forall i :: 0 <= i < |r| ==> !r[i].1.Other? && Regular(r[i].1)
    ensures |r| <= |es|
    decreases EntriesSize(es), 1
  {
    if es == [] then []
    else
      EntriesSizeCons(es);
      (if es[0].1.Other? then [] else [(es[0].0, Prune(es[0].1))]) + PruneEntries(es[1..])
  }

  /** No special file anywhere below the root. */
  predicate Regular(n: Node)
  {
    match n
    case Dir(es) => forall i :: 0 <= i < |es| ==> !es[i].1.Other? && Regular(es[i].1)
    case _ => true
  }

  /* ---------------- listings ---------------- */

  lemma StoreFind(es: Listing, name: Name, o: Option<Node>)
    ensures Find(Store(es, name, o), name) == if o.Some? then o else Find(es, name)
    ensures forall m :: m != name ==> Find(Store(es, name, o), m) == Find(es, m)
  {
    if o.Some? {
      PutFind(es, name, o.value);
    }
  }

  lemma WellFormedChild(es: Listing, name: Name)
    requires WellFormed(Dir(es))
    requires Find(es, name).Some?
    ensures WellFormed(Find(es, name).value)
  {
  }

  /** The children of a walked directory are found under the same name in the source and the destination. */
  lemma LookupChild(src: Node, dest: Option<Node>, m: Name, q: Path)
    requires src.Dir? && !IsNonDir(dest)
    ensures Lookup(src, [m] + q) == LookupIn(Find(src.entries, m), q)
    ensures LookupIn(dest, [m] + q) == LookupIn(Find(if dest.Some? then dest.value.entries else [], m), q)
  {
  }

  /** The entries of the listing only touch the destination entries of the same names, whatever the outcome. */
  lemma {:induction false} CopyEntriesLocal(es: Listing, dest: Listing, at: Path)
    ensures forall m :: !Named(es, m) ==> Find(CopyEntries(es, dest, at).value, m) == Find(dest, m)
    decreases |es|
  {
    if es != [] {
      var name := es[0].0;
      var item := CopyItem(es[0].1, Find(dest, name), at + [name]);
      var next := Store(dest, name, item.value);
      StoreFind(dest, name, item.value);
      if item.err.None? {
        CopyEntriesLocal(es[1..], next, at);
        assert forall i :: 0 <= i < |es[1..]| ==> es[1..][i] == es[i + 1];
      }
    }
  }

  /** Whatever the outcome, the pass over a listing removes no destination entry. */
  lemma {:induction false} CopyEntriesKeeps(es: Listing, dest: Listing, at: Path)
    ensures forall m :: Named(dest, m) ==> Named(CopyEntries(es, dest, at).value, m)
    decreases |es|
  {
    if es != [] {
      var name := es[0].0;
      var item := CopyItem(es[0].1, Find(dest, name), at + [name]);
      var next := Store(dest, name, item.value);
      StoreFind(dest, name, item.value);
      forall m | Named(dest, m)
        ensures Named(next, m)
      {
        assert Find(dest, m).Some?;
        assert Find(next, m).Some?;
      }
      if item.err.None? {
        CopyEntriesKeeps(es[1..], next, at);
      }
    }
  }

  /**
   After a successful pass over a listing with distinct names, each destination
   entry is what copying the source entry of that name onto it gives, and an
   entry the source does not name is as it was.
   */
  lemma {:induction false} CopyEntriesSuccess(es: Listing, dest: Listing, at: Path)
    requires DistinctNames(es)
    requires CopyEntries(es, dest, at).err.None?
    ensures forall m :: Find(es, m).Some? ==> CopyItem(Find(es, m).value, Find(dest, m), at + [m]).err.None?
    ensures forall m ::
              Find(CopyEntries(es, dest, at).value, m) ==
              if Find(es, m).Some? then CopyItem(Find(es, m).value, Find(dest, m), at + [m]).value
              else Find(dest, m)
    decreases |es|
  {
    if es != [] {
      var name := es[0].0;
      var item := CopyItem(es[0].1, Find(dest, name), at + [name]);
      var next := Store(dest, name, item.value);
      StoreFind(dest, name, item.value);
      DistinctTail(es);
      CopyEntriesSuccess(es[1..], next, at);
    }
  }

  /**
   A failed pass over a listing with distinct names failed at one of its
   children, copied onto the destination entry of that name as it was before.
   */
  lemma {:induction false} CopyEntriesError(es: Listing, dest: Listing, at: Path)
    requires DistinctNames(es)
    requires CopyEntries(es, dest, at).err.Some?
    ensures exists k ::
              && 0 <= k < |es|
              && CopyItem(es[k].1, Find(dest, es[k].0), at + [es[k].0]).err == CopyEntries(es, dest, at).err
    decreases |es|
  {
    var name := es[0].0;
    var item := CopyItem(es[0].1, Find(dest, name), at + [name]);
    if item.err.Some? {
      assert 0 < |es|;
    } else {
      var next := Store(dest, name, item.value);
      StoreFind(dest, name, item.value);
      DistinctTail(es);
      CopyEntriesError(es[1..], next, at);
      var k :| 0 <= k < |es[1..]| &&
        CopyItem(es[1..][k].1, Find(next, es[1..][k].0), at + [es[1..][k].0]).err == CopyEntries(es[1..], next, at).err;
      assert es[1..][k] == es[k + 1];
      assert es[k + 1].0 != name;
    }
  }

  /* ---------------- what a successful copy leaves behind ---------------- */

  /**
   After a successful walk, a regular file of the source is at the same
   relative path with the same bytes, a directory of the source is a
   directory, and wherever the source has neither the destination is as it was.
   */
  lemma {:induction false} WalkPaths(src: Node, dest: Option<Node>, at: Path, p: Path)
    requires WellFormed(src)
    requires WalkSubfolder(src, dest, at).err.None?
    ensures IsFile(Lookup(src, p)) ==> Lookup(WalkSubfolder(src, dest, at).value, p) == Lookup(src, p)
    ensures IsDir(Lookup(src, p)) ==> IsDir(Lookup(WalkSubfolder(src, dest, at).value, p))
    ensures !IsFile(Lookup(src, p)) && !IsDir(Lookup(src, p)) ==>
              Lookup(WalkSubfolder(src, dest, at).value, p) == LookupIn(dest, p)
    decreases src
  {
    if p != [] {
      var es := src.entries;
      var existing := if dest.Some? then dest.value.entries else [];
      var r := CopyEntries(es, existing, at);
      var m, q := p[0], p[1..];
      assert p == [m] + q;
      LookupChild(src, dest, m, q);
      LookupChild(Dir(r.value), None, m, q);
      CopyEntriesSuccess(es, existing, at);
      var c := Find(es, m);
      if c.Some? && c.value.Dir? {
        WellFormedChild(es, m);
        WalkPaths(c.value, Find(existing, m), at + [m], q);
      }
    }
  }

  /** Every regular file of the source is at the same relative path afterwards, byte for byte. */
  lemma CopySyncCopiesFiles(src: Node, dest: Option<Node>)
    requires WellFormed(src)
    requires CopySync(src, dest).err.None?
    ensures forall p :: IsFile(Lookup(src, p)) ==> Lookup(CopySync(src, dest).value, p) == Lookup(src, p)
  {
    forall p | IsFile(Lookup(src, p)) {
      WalkPaths(src, dest, [], p);
    }
  }

  /** Every directory of the source, the root "." included, is a directory afterwards. */
  lemma CopySyncCreatesDirs(src: Node, dest: Option<Node>)
    requires WellFormed(src)
    requires CopySync(src, dest).err.None?
    ensures CopySync(src, dest).value.Dir?
    ensures forall p :: IsDir(Lookup(src, p)) ==> IsDir(Lookup(CopySync(src, dest).value, p))
  {
    forall p | IsDir(Lookup(src, p)) {
      WalkPaths(src, dest, [], p);
    }
    WalkPaths(src, dest, [], []);
  }

  /**
   Nothing is deleted: wherever the source has no regular file and no
   directory (an absent path or a special file), the destination is unchanged.
   */
  lemma CopySyncLeavesRest(src: Node, dest: Option<Node>)
    requires WellFormed(src)
    requires CopySync(src, dest).err.None?
    ensures forall p :: !IsFile(Lookup(src, p)) && !IsDir(Lookup(src, p)) ==>
              Lookup(CopySync(src, dest).value, p) == LookupIn(dest, p)
  {
    forall p | !IsFile(Lookup(src, p)) && !IsDir(Lookup(src, p)) {
      WalkPaths(src, dest, [], p);
    }
  }

  /* ---------------- when a copy fails ---------------- */

  /** An error reported by a walk is a conflict between the two trees at the path it names. */
  lemma {:induction false} WalkError(src: Node, dest: Option<Node>, at: Path)
    requires WellFormed(src)
    requires WalkSubfolder(src, dest, at).err.Some?
    ensures var e := WalkSubfolder(src, dest, at).err.value;
            at <= e.path && Conflict(src, dest, e.code, e.path[|at|..])
    decreases src, 2
  {
    var e := WalkSubfolder(src, dest, at).err.value;
    if !IsNonDir(dest) && src.Dir? {
      WalkEntriesError(src, dest, at);
    } else {
      assert e.path[|at|..] == [];
    }
  }

  /** An error from the `forEach` over a directory's listing is a conflict below that directory. */
  lemma {:induction false} WalkEntriesError(src: Node, dest: Option<Node>, at: Path)
    requires WellFormed(src) && src.Dir? && !IsNonDir(dest)
    requires CopyEntries(src.entries, if dest.Some? then dest.value.entries else [], at).err.Some?
    ensures var e := CopyEntries(src.entries, if dest.Some? then dest.value.entries else [], at).err.value;
            at <= e.path && Conflict(src, dest, e.code, e.path[|at|..])
    decreases src, 1
  {
    var es := src.entries;
    var existing := if dest.Some? then dest.value.entries else [];
    var e := CopyEntries(es, existing, at).err.value;
    CopyEntriesError(es, existing, at);
    var k :| 0 <= k < |es| && CopyItem(es[k].1, Find(existing, es[k].0), at + [es[k].0]).err == Some(e);
    EntryErrorLift(src, dest, at, k);
  }

  /** An error from copying the `k`-th child of a walked directory is a conflict of the directory. */
  lemma {:induction false} EntryErrorLift(src: Node, dest: Option<Node>, at: Path, k: int)
    requires WellFormed(src) && src.Dir? && !IsNonDir(dest)
    requires 0 <= k < |src.entries|
    requires CopyItem(src.entries[k].1, Find(if dest.Some? then dest.value.entries else [], src.entries[k].0),
                      at + [src.entries[k].0]).err.Some?
    ensures var e := CopyItem(src.entries[k].1, Find(if dest.Some? then dest.value.entries else [], src.entries[k].0),
                              at + [src.entries[k].0]).err.value;
            at <= e.path && Conflict(src, dest, e.code, e.path[|at|..])
    decreases src, 0
  {
    var es := src.entries;
    var existing := if dest.Some? then dest.value.entries else [];
    var m, c := es[k].0, es[k].1;
    var e := CopyItem(c, Find(existing, m), at + [m]).err.value;
    FindAt(es, k);
    assert WellFormed(c);
    CopyItemError(c, Find(existing, m), at + [m]);
    PathBelow(at, m, e.path);
    ConflictLift(src, dest, m, e.path[|at| + 1..], e.code);
  }

  /** A path at or below `at + [m]` is below `at`, and continues with `m`. */
  lemma PathBelow(at: Path, m: Name, p: Path)
    requires at + [m] <= p
    ensures at <= p && p[|at|..] == [m] + p[|at| + 1..]
  {
    assert p[|at|] == m;
  }

  /** An error from copying one entry is a conflict at or below that entry, and never a missing root. */
  lemma {:induction false} CopyItemError(c: Node, prior: Option<Node>, at: Path)
    requires WellFormed(c)
    requires CopyItem(c, prior, at).err.Some?
    ensures var e := CopyItem(c, prior, at).err.value;
            && at <= e.path
            && e.code != NotADirectory
            && (e.code == AlreadyExists ==> c.Dir?)
            && Conflict(c, prior, e.code, e.path[|at|..])
    decreases c, 3
  {
    var e := CopyItem(c, prior, at).err.value;
    if c.Dir? {
      WalkError(c, prior, at);
    } else {
      assert e.path[|at|..] == [];
    }
  }

  /** A conflict below a child of a walked directory is a conflict of the directory at the longer path. */
  lemma ConflictLift(src: Node, dest: Option<Node>, m: Name, q: Path, code: ErrorCode)
    requires src.Dir? && !IsNonDir(dest)
    requires Find(src.entries, m).Some?
    requires code != NotADirectory
    requires code == AlreadyExists ==> Find(src.entries, m).value.Dir?
    requires Conflict(Find(src.entries, m).value,
                      Find(if dest.Some? then dest.value.entries else [], m), code, q)
    ensures Conflict(src, dest, code, [m] + q)
  {
    LookupChild(src, dest, m, q);
  }

  /** A walk without an error leaves no conflict anywhere below it. */
  lemma {:induction false} WalkSuccessNoConflict(src: Node, dest: Option<Node>, at: Path, code: ErrorCode, q: Path)
    requires WellFormed(src)
    requires WalkSubfolder(src, dest, at).err.None?
    ensures !Conflict(src, dest, code, q)
    decreases src
  {
    if q == [] {
      assert Lookup(src, q) == Some(src) && LookupIn(dest, q) == dest;
    } else {
      var es := src.entries;
      var existing := if dest.Some? then dest.value.entries else [];
      var m, q' := q[0], q[1..];
      assert q == [m] + q';
      LookupChild(src, dest, m, q');
      CopyEntriesSuccess(es, existing, at);
      var c := Find(es, m);
      if c.Some? && c.value.Dir? {
        WellFormedChild(es, m);
        WalkSuccessNoConflict(c.value, Find(existing, m), at + [m], code, q');
      }
    }
  }

  /**
   `copySync` succeeds exactly when no directory of the source meets a
   non-directory in the destination, no file of the source meets a directory,
   and the source root is a directory; an error names such a conflict.
   */
  lemma CopySyncSucceedsIff(src: Node, dest: Option<Node>)
    requires WellFormed(src)
    ensures CopySync(src, dest).err.None? <==> NoConflict(src, dest)
    ensures CopySync(src, dest).err.Some? ==>
              var e := CopySync(src, dest).err.value;
              Conflict(src, dest, e.code, e.path)
  {
    var r := CopySync(src, dest);
    if r.err.None? {
      forall code, q {
        WalkSuccessNoConflict(src, dest, [], code, q);
      }
    } else {
      WalkError(src, dest, []);
      assert r.err.value.path[0..] == r.err.value.path;
    }
  }

  /* ---------------- copying twice ---------------- */

  lemma {:induction false} WalkIdempotent(src: Node, dest: Option<Node>, at: Path)
    requires WellFormed(src)
    ensures WalkSubfolder(src, Some(WalkSubfolder(src, dest, at).value), at) == WalkSubfolder(src, dest, at)
    decreases Size(src), 0
  {
    if !IsNonDir(dest) && src.Dir? {
      var existing := if dest.Some? then dest.value.entries else [];
      CopyEntriesIdempotent(src.entries, existing, at);
    }
  }

  lemma {:induction false} CopyItemIdempotent(src: Node, dest: Option<Node>, at: Path)
    requires WellFormed(src)
    ensures CopyItem(src, CopyItem(src, dest, at).value, at) == CopyItem(src, dest, at)
    decreases Size(src), 1
  {
    if src.Dir? {
      WalkIdempotent(src, dest, at);
    }
  }

  lemma {:induction false} CopyEntriesIdempotent(es: Listing, dest: Listing, at: Path)
    requires WellFormed(Dir(es))
    ensures CopyEntries(es, CopyEntries(es, dest, at).value, at) == CopyEntries(es, dest, at)
    decreases EntriesSize(es), 2
  {
    if es != [] {
      EntriesSizeCons(es);
      var name, child := es[0].0, es[0].1;
      var item := CopyItem(child, Find(dest, name), at + [name]);
      var next := Store(dest, name, item.value);
      StoreFind(dest, name, item.value);
      assert Find(next, name) == item.value;
      assert WellFormed(child);
      CopyItemIdempotent(child, Find(dest, name), at + [name]);
      DistinctTail(es);
      var rest := es[1..];
      assert WellFormed(Dir(rest)) by {
        assert forall i :: 0 <= i < |rest| ==> rest[i] == es[i + 1];
      }
      if item.err.None? {
        var done := CopyEntries(rest, next, at).value;
        CopyEntriesLocal(rest, next, at);
        assert Find(done, name) == item.value;
        StoreFind(done, name, item.value);
        if item.value.Some? {
          PutFound(done, name, item.value.value);
        }
        CopyEntriesIdempotent(rest, next, at);
      } else if item.value.Some? {
        PutFound(next, name, item.value.value);
      }
    }
  }

  /**
   `copySync` is idempotent: copying the same source onto its own result
   changes nothing and ends with the same outcome, error included.
   */
  lemma CopySyncIdempotent(src: Node, dest: Option<Node>)
    requires WellFormed(src)
    ensures CopySync(src, Some(CopySync(src, dest).value)) == CopySync(src, dest)
  {
    WalkIdempotent(src, dest, []);
  }

  /* ---------------- copying into nothing ---------------- */

  lemma {:induction false} WalkFresh(src: Node, at: Path)
    requires WellFormed(src) && src.Dir?
    ensures WalkSubfolder(src, None, at) == Partial(Prune(src), None)
    decreases Size(src), 0
  {
    CopyEntriesFresh(src.entries, [], at);
    assert [] + PruneEntries(src.entries) == PruneEntries(src.entries);
  }

  lemma {:induction false} CopyItemFresh(src: Node, at: Path)
    requires WellFormed(src)
    ensures CopyItem(src, None, at) == Partial(if src.Other? then None else Some(Prune(src)), None)
    decreases Size(src), 1
  {
    if src.Dir? {
      WalkFresh(src, at);
    }
  }

  lemma {:induction false} CopyEntriesFresh(es: Listing, dest: Listing, at: Path)
    requires WellFormed(Dir(es))
    requires forall i :: 0 <= i < |es| ==> Find(dest, es[i].0).None?
    ensures CopyEntries(es, dest, at) == Partial(dest + PruneEntries(es), None)
    decreases EntriesSize(es), 2
  {
    if es != [] {
      EntriesSizeCons(es);
      var name, child, rest := es[0].0, es[0].1, es[1..];
      assert Find(dest, name).None? && WellFormed(child);
      CopyItemFresh(child, at + [name]);
      var item := CopyItem(child, None, at + [name]);
      var next := Store(dest, name, item.value);
      StoreFind(dest, name, item.value);
      assert CopyEntries(es, dest, at) == CopyEntries(rest, next, at);
      var kept := if child.Other? then [] else [(name, Prune(child))];
      assert next == dest + kept by {
        if !child.Other? {
          PutAppends(dest, name, Prune(child));
        }
      }
      assert PruneEntries(es) == kept + PruneEntries(rest);
      FreshRest(es, dest, next);
      CopyEntriesFresh(rest, next, at);
      ConcatAssoc(dest, kept, PruneEntries(rest));
      assert next + PruneEntries(rest) == dest + PruneEntries(es);
    } else {
      assert dest + PruneEntries(es) == dest;
    }
  }

  lemma ConcatAssoc<T>(a: seq<T>, b: seq<T>, c: seq<T>)
    ensures (a + b) + c == a + (b + c)
  {
  }

  /** The names after the first one are still absent once the first entry is stored. */
  lemma FreshRest(es: Listing, dest: Listing, next: Listing)
    requires es != [] && WellFormed(Dir(es))
    requires forall i :: 0 <= i < |es| ==> Find(dest, es[i].0).None?
    requires forall m :: m != es[0].0 ==> Find(next, m) == Find(dest, m)
    ensures WellFormed(Dir(es[1..]))
    ensures forall i :: 0 <= i < |es[1..]| ==> Find(next, es[1..][i].0).None?
  {
  }

  /**
   Copying a directory where nothing exists yet reproduces it exactly, in the
   same listing order, minus the special files that are skipped.
   */
  lemma CopySyncIntoNothing(src: Node)
    requires WellFormed(src) && src.Dir?
    ensures CopySync(src, None) == Partial(Prune(src), None)
  {
    WalkFresh(src, []);
  }

  lemma {:induction false} PruneRegular(n: Node)
    requires Regular(n)
    ensures Prune(n) == n
    decreases Size(n), 0
  {
    if n.Dir? {
      PruneEntriesRegular(n.entries);
    }
  }

  lemma {:induction false} PruneEntriesRegular(es: Listing)
    requires forall i :: 0 <= i < |es| ==> !es[i].1.Other? && Regular(es[i].1)
    ensures PruneEntries(es) == es
    decreases EntriesSize(es), 1
  {
    if es != [] {
      EntriesSizeCons(es);
      PruneRegular(es[0].1);
      assert forall i :: 0 <= i < |es[1..]| ==> es[1..][i] == es[i + 1];
      PruneEntriesRegular(es[1..]);
      assert es == [es[0]] + es[1..];
    }
  }

  /** A directory with no special file anywhere below it is copied into nothing exactly as it is. */
  lemma CopySyncReproduces(src: Node)
    requires WellFormed(src) && src.Dir? && Regular(src)
    ensures CopySync(src, None) == Partial(src, None)
  {
    CopySyncIntoNothing(src);
    PruneRegular(src);
  }
}

=== FILE: copyhash.dfy ===
/** The copy and the fingerprint together. */
module CopyHash {
  import opened Wrappers
  import opened FsTree
  import Copy
  import Hash

  /** Dropping special files drops no bytes: they feed nothing to the hash. */
  lemma {:induction false} FlattenPrune(n: Node)
    ensures Hash.Flatten(Copy.Prune(n)) == Hash.Flatten(n)
    decreases Size(n), 0
  {
    if n.Dir? {
      FlattenPruneEntries(n.entries);
    }
  }

  lemma {:induction false} FlattenPruneEntries(es: Listing)
    ensures Hash.FlattenEntries(Copy.PruneEntries(es)) == Hash.FlattenEntries(es)
    decreases EntriesSize(es), 1
  {
    if es != [] {
      EntriesSizeCons(es);
      FlattenPrune(es[0].1);
      FlattenPruneEntries(es[1..]);
      var rest := Copy.PruneEntries(es[1..]);
      assert Hash.FlattenEntries(es) == Hash.Flatten(es[0].1) + Hash.FlattenEntries(es[1..]);
      if es[0].1.Other? {
        assert Copy.PruneEntries(es) == [] + rest == rest;
      } else {
        var head := (es[0].0, Copy.Prune(es[0].1));
        assert Copy.PruneEntries(es) == [head] + rest;
        EntriesSizeCons([head] + rest);
        assert ([head] + rest)[1..] == rest;
        assert Hash.FlattenEntries([head] + rest) == Hash.Flatten(head.1) + Hash.FlattenEntries(rest);
      }
    }
  }

  /**
   Copying a directory where nothing exists yet and fingerprinting the copy
   gives the fingerprint of the source.
   */
  lemma HashAfterFreshCopy(src: Node, md5: seq<byte> -> Hash.Digest)
    requires WellFormed(src) && src.Dir?
    ensures Hash.HashPath(Copy.CopySync(src, None).value, md5) == Hash.HashPath(src, md5)
  {
    Copy.CopySyncIntoNothing(src);
    FlattenPrune(src);
  }
}

=== FILE: fstree.dfy ===
/**
 An in-memory model of the part of a filesystem that the tree walks of
 `packages/cdktf/lib/private/fs.ts` see.

 A node is what `statSync` classifies a path as: a regular file with its
 bytes, a directory with its listing, or anything else (socket, fifo,
 device). A directory's listing keeps the order in which `readdirSync`
 returns it; both walks visit children in exactly that order.
 */
module FsTree {
  import opened Wrappers

  type byte = b: int | 0 <= b < 256

  type Name = string

  /** A path relative to a traversal root, one name per level; `[]` is the root ".". */
  type Path = seq<Name>

  datatype Node = File(bytes: seq<byte>) | Dir(entries: seq<(Name, Node)>) | Other

  /** A directory listing, in listing order. */
  type Listing = seq<(Name, Node)>

  /* ---------------- termination measure ---------------- */

  /** Number of nodes in a tree; the measure every walk over a tree decreases. */
  ghost function Size(n: Node): (r: nat)
    ensures r >= 1
  {
    match n
    case Dir(es) => 1 + SizeOf(n, es)
    case _ => 1
  }

  ghost function SizeOf(parent: Node, es: Listing): nat
    requires parent.Dir? && forall i :: 0 <= i < |es| ==> es[i] in parent.entries
    decreases parent, |es|
  {
    if es == [] then 0
    else
      assert es[0] in parent.entries;
      Size(es[0].1) + SizeOf(parent, es[1..])
  }

  lemma {:induction false} SizeOfParent(p: Node, q: Node, es: Listing)
    requires p.Dir? && forall i :: 0 <= i < |es| ==> es[i] in p.entries
    requires q.Dir? && forall i :: 0 <= i < |es| ==> es[i] in q.entries
    ensures SizeOf(p, es) == SizeOf(q, es)
    decreases |es|
  {
    if es != [] {
      SizeOfParent(p, q, es[1..]);
    }
  }

  /** Number of nodes below a listing. */
  ghost function EntriesSize(es: Listing): nat
  {
    Size(Dir(es)) - 1
  }

  /** The size of a listing is the size of its first child plus the size of the rest. */
  lemma EntriesSizeCons(es: Listing)
    requires es != []
    ensures EntriesSize(es) == Size(es[0].1) + EntriesSize(es[1..])
  {
    var rest := es[1..];
    assert forall i :: 0 <= i < |rest| ==> rest[i] == es[i + 1];
    SizeOfParent(Dir(es), Dir(rest), rest);
    assert Size(Dir(es)) == 1 + SizeOf(Dir(es), es);
  }

  /* ---------------- listings ---------------- */

  /** True iff some entry of the listing is called `name`. */
  predicate Named(es: Listing, name: Name)
  {
    exists i :: 0 <= i < |es| && es[i].0 == name
  }

  /** No two entries of the listing share a name, as in any real directory. */
  predicate DistinctNames(es: Listing)
  {
    forall i, j :: 0 <= i < j < |es| ==> es[i].0 != es[j].0
  }

  /** The child called `name`: the first entry with that name, if any. */
  function Find(es: Listing, name: Name): (r: Option<Node>)
    ensures r.Some? <==> Named(es, name)
    ensures r.Some? ==> (name, r.value) in es
  {
    if es == [] then None
    else if es[0].0 == name then Some(es[0].1)
    else
      var r := Find(es[1..], name);
      assert Named(es[1..], name) ==> Named(es, name) by {
        if Named(es[1..], name) {
          var i :| 0 <= i < |es[1..]| && es[1..][i].0 == name;
          assert es[i + 1].0 == name;
        }
      }
      r
  }

  /** In a listing with distinct names, the entry at index `i` is the one found under its name. */
  lemma FindAt(es: Listing, i: int)
    requires DistinctNames(es)
    requires 0 <= i < |es|
    ensures Find(es, es[i].0) == Some(es[i].1)
  {
  }

  /**
   The listing after the child called `name` is set to `n`: the first entry
   with that name is replaced in place; a new name is appended at the end.
   */
  function Put(es: Listing, name: Name, n: Node): (r: Listing)
    ensures |r| == if Named(es, name) then |es| else |es| + 1
  {
    if es == [] then [(name, n)]
    else if es[0].0 == name then [(name, n)] + es[1..]
    else
      assert Named(es[1..], name) ==> Named(es, name) by {
        if Named(es[1..], name) {
          var i :| 0 <= i < |es[1..]| && es[1..][i].0 == name;
          assert es[i + 1].0 == name;
        }
      }
      [es[0]] + Put(es[1..], name, n)
  }

  /** After `Put`, the name finds the new child and every other name finds what it found before. */
  lemma {:induction false} PutFind(es: Listing, name: Name, n: Node)
    ensures Find(Put(es, name, n), name) == Some(n)
    ensures forall m :: m != name ==> Find(Put(es, name, n), m) == Find(es, m)
  {
    if es != [] && es[0].0 != name {
      PutFind(es[1..], name, n);
      var r := Put(es, name, n);
      assert r[0] == es[0] && r[1..] == Put(es[1..], name, n);
    }
  }

  /** Storing the child a name already finds changes nothing. */
  lemma {:induction false} PutFound(es: Listing, name: Name, n: Node)
    requires Find(es, name) == Some(n)
    ensures Put(es, name, n) == es
  {
    if es[0].0 != name {
      PutFound(es[1..], name, n);
    }
  }

  /** A name the listing does not have is appended at the end. */
  lemma {:induction false} PutAppends(es: Listing, name: Name, n: Node)
    requires Find(es, name).None?
    ensures Put(es, name, n) == es + [(name, n)]
  {
    if es != [] {
      PutAppends(es[1..], name, n);
      assert es == [es[0]] + es[1..];
    }
  }

  /* ---------------- paths ---------------- */

  /** What `statSync(resolve(root, p))` finds: the node at relative path `p`, if any. */
  function Lookup(n: Node, p: Path): Option<Node>
    decreases |p|, 0
  {
    if p == [] then Some(n)
    else
      match n
      case Dir(es) => LookupIn(Find(es, p[0]), p[1..])
      case _ => None
  }

  /** `Lookup` below a root that may itself be absent. */
  function LookupIn(root: Option<Node>, p: Path): Option<Node>
    decreases |p|, 1
  {
    match root
    case None => None
    case Some(n) => Lookup(n, p)
  }

  predicate IsFile(o: Option<Node>)
  {
    o.Some? && o.value.File?
  }

  predicate IsDir(o: Option<Node>)
  {
    o.Some? && o.value.Dir?
  }

  /** Something exists there, and it is not a directory. */
  predicate IsNonDir(o: Option<Node>)
  {
    o.Some? && !o.value.Dir?
  }

  /** Every directory of the tree has distinct names. */
  predicate WellFormed(n: Node)
  {
    match n
    case Dir(es) =>
      && DistinctNames(es)
      && forall i :: 0 <= i < |es| ==> WellFormed(es[i].1)
    case _ => true
  }

  /** Dropping the first entry of a well-formed listing keeps it well formed, and loses that entry's name. */
  lemma DistinctTail(es: Listing)
    requires es != [] && DistinctNames(es)
    ensures DistinctNames(es[1..])
    ensures !Named(es[1..], es[0].0)
  {
  }

  lemma WellFormedTail(es: Listing)
    requires es != [] && WellFormed(Dir(es))
    ensures WellFormed(es[0].1) && WellFormed(Dir(es[1..]))
    ensures !Named(es[1..], es[0].0)
  {
  }
}

=== FILE: hash.dfy ===
/**
 The content fingerprint `hashPath(src)` of `packages/cdktf/lib/private/fs.ts`.

 One MD5 context is fed the bytes of every regular file, in the depth-first
 listing order of `hashRecursion`; names, directories and special files feed
 nothing. The digest is hex-encoded, cut to `HASH_LEN` characters and
 upper-cased. MD5 itself is a library call and is a parameter here.
 */
module Hash {
  import opened Wrappers
  import opened FsTree

  /** `HASH_LEN`: the number of hex characters the fingerprint keeps. */
  const HASH_LEN: nat := 32

  /** The 16 bytes of an MD5 digest. */
  type Digest = d: seq<byte> | |d| == 16 witness [0, 0, 0, 0, 0, 0, 0, 0, 0, 0, 0, 0, 0, 0, 0, 0]

  /** `0-9a-f`, the alphabet of `digest("hex")`. */
  predicate IsLowerHex(c: char)
  {
    '0' <= c <= '9' || 'a' <= c <= 'f'
  }

  /** `0-9A-F`, the alphabet of the fingerprint. */
  predicate IsUpperHex(c: char)
  {
    '0' <= c <= '9' || 'A' <= c <= 'F'
  }

  /** The lower-case hex digit of a nibble. */
  function LowerDigit(k: int): (c: char)
    requires 0 <= k < 16
    ensures IsLowerHex(c)
  {
    if k < 10 then ('0' as int + k) as char else ('a' as int + k - 10) as char
  }

  function Min(a: int, b: int): int
  {
    if a <= b then a else b
  }

  /* ---------------- what the hash context is fed ---------------- */

  /** `hashRecursion`: the bytes passed to `hash.update`, in order. */
  function Flatten(n: Node): seq<byte>
    decreases Size(n), 0
  {
    match n
    case File(bytes) => bytes
    case Dir(es) => FlattenEntries(es)
    case Other => []
  }

  /** The `forEach` of `hashRecursion` over one listing. */
  function FlattenEntries(es: Listing): seq<byte>
    decreases EntriesSize(es), 1
  {
    if es == [] then []
    else
      EntriesSizeCons(es);
      Flatten(es[0].1) + FlattenEntries(es[1..])
  }

  /** Every regular file of a tree with its relative path, in depth-first listing order. */
  function Files(n: Node): seq<(Path, seq<byte>)>
    decreases Size(n), 0
  {
    match n
    case File(bytes) => [([], bytes)]
    case Dir(es) => FilesEntries(es)
    case Other => []
  }

  function FilesEntries(es: Listing): seq<(Path, seq<byte>)>
    decreases EntriesSize(es), 1
  {
    if es == [] then []
    else
      EntriesSizeCons(es);
      Under(es[0].0, Files(es[0].1)) + FilesEntries(es[1..])
  }

  /** The same files, seen from the parent directory of `name`. */
  function Under(name: Name, fs: seq<(Path, seq<byte>)>): (r: seq<(Path, seq<byte>)>)
    ensures |r| == |fs|
    ensures forall i :: 0 <= i < |r| ==> r[i] == ([name] + fs[i].0, fs[i].1)
  {
    seq(|fs|, i requires 0 <= i < |fs| => ([name] + fs[i].0, fs[i].1))
  }

  /** The contents of a list of files, one after the other. */
  function Contents(fs: seq<(Path, seq<byte>)>): seq<byte>
  {
    if fs == [] then [] else fs[0].1 + Contents(fs[1..])
  }

  /* ---------------- the fingerprint ---------------- */

  /** `digest("hex")`: two lower-case hex digits per byte, high nibble first. */
  function ToHex(d: seq<byte>): (r: string)
    ensures |r| == 2 * |d|
    ensures forall i :: 0 <= i < |r| ==> IsLowerHex(r[i])
  {
    if d == [] then []
    else [LowerDigit(d[0] / 16), LowerDigit(d[0] % 16)] + ToHex(d[1..])
  }

  /** `toUpperCase` on one character, for the ASCII letters it can meet here. */
  function UpperChar(c: char): (r: char)
    ensures IsLowerHex(c) ==> IsUpperHex(r)
    ensures IsLowerHex(c) ==> DigitValue(r).Some? && LowerDigit(DigitValue(r).value) == c
    ensures 'a' <= c <= 'z' ==> 'A' <= r <= 'Z' && r as int - 'A' as int == c as int - 'a' as int
    ensures !('a' <= c <= 'z') ==> r == c
  {
    if 'a' <= c <= 'z' then (c as int - 32) as char else c
  }

  function ToUpper(s: string): (r: string)
    ensures |r| == |s|
    ensures forall i :: 0 <= i < |s| ==> r[i] == UpperChar(s[i])
    ensures forall i :: 0 <= i < |s| && IsLowerHex(s[i]) ==>
              IsUpperHex(r[i]) && DigitValue(r[i]).Some? && LowerDigit(DigitValue(r[i]).value) == s[i]
  {
    seq(|s|, i requires 0 <= i < |s| => UpperChar(s[i]))
  }

  /** `digest("hex").slice(0, HASH_LEN).toUpperCase()` */
  function Finish(d: seq<byte>): (r: string)
    ensures |r| == Min(2 * |d|, HASH_LEN)
    ensures forall i :: 0 <= i < |r| ==> IsUpperHex(r[i])
  {
    var h := ToHex(d);
    var r := ToUpper(h[..Min(|h|, HASH_LEN)]);
    UpperHexDigit();
    r
  }

  /** `hashPath(src)`: the fingerprint of everything below `src`. */
  function HashPath(src: Node, md5: seq<byte> -> Digest): (r: string)
    ensures |r| == HASH_LEN
    ensures forall i :: 0 <= i < |r| ==> IsUpperHex(r[i])
    ensures DecodeHex(r) == Some(md5(Flatten(src)))
  {
    var d := md5(Flatten(src));
    FinishDecodes(d);
    assert d[..16] == d;
    Finish(d)
  }

  /* ---------------- reading a fingerprint back ---------------- */

  /** The value of an upper-case hex digit. */
  function DigitValue(c: char): (r: Option<int>)
    ensures r.Some? ==> 0 <= r.value < 16
  {
    if '0' <= c <= '9' then Some(c as int - '0' as int)
    else if 'A' <= c <= 'F' then Some(c as int - 'A' as int + 10)
    else None
  }

  /** The bytes an upper-case hex string spells, two digits per byte; `None` if it spells none. */
  function DecodeHex(s: string): Option<seq<byte>>
  {
    if |s| == 0 then Some([])
    else if |s| == 1 then None
    else
      match (DigitValue(s[0]), DigitValue(s[1]), DecodeHex(s[2..]))
      case (Some(hi), Some(lo), Some(rest)) => Some([(hi * 16 + lo) as byte] + rest)
      case _ => None
  }

  /** Upper-casing a lower-case hex digit gives the upper-case digit of the same value, which reads back as that value. */
  lemma UpperHexDigit()
    ensures forall k :: 0 <= k < 16 ==> DigitValue(UpperChar(LowerDigit(k))) == Some(k)
    ensures forall c :: IsLowerHex(c) ==> IsUpperHex(UpperChar(c))
  {
  }

  /** Hex-encoding a prefix of the bytes gives the matching prefix of the encoding. */
  lemma {:induction false} ToHexPrefix(d: seq<byte>, k: nat)
    requires k <= |d|
    ensures ToHex(d)[..2 * k] == ToHex(d[..k])
  {
    if k > 0 {
      ToHexPrefix(d[1..], k - 1);
      assert d[..k][1..] == d[1..][..k - 1];
    }
  }

  /** The upper-cased hex encoding reads back as the bytes it encodes. */
  lemma {:induction false} DecodeUpperHex(d: seq<byte>)
    ensures DecodeHex(ToUpper(ToHex(d))) == Some(d)
  {
    if d != [] {
      var s := ToUpper(ToHex(d));
      UpperHexHead(d);
      DecodeUpperHex(d[1..]);
      DecodeCons(s, d[0] / 16, d[0] % 16, d[1..]);
      assert d == [d[0]] + d[1..];
    }
  }

  /** The first two digits of the upper-cased encoding spell the first byte; the rest encodes the rest. */
  lemma UpperHexHead(d: seq<byte>)
    requires d != []
    ensures var s := ToUpper(ToHex(d));
            && |s| >= 2
            && DigitValue(s[0]) == Some(d[0] / 16)
            && DigitValue(s[1]) == Some(d[0] % 16)
            && s[2..] == ToUpper(ToHex(d[1..]))
  {
    var h := ToHex(d);
    assert h[0] == LowerDigit(d[0] / 16) && h[1] == LowerDigit(d[0] % 16) && h[2..] == ToHex(d[1..]);
    UpperHexDigit();
  }

  lemma DecodeCons(s: string, hi: int, lo: int, rest: seq<byte>)
    requires |s| >= 2 && 0 <= hi < 16 && 0 <= lo < 16
    requires DigitValue(s[0]) == Some(hi) && DigitValue(s[1]) == Some(lo)
    requires DecodeHex(s[2..]) == Some(rest)
    ensures DecodeHex(s) == Some([(hi * 16 + lo) as byte] + rest)
  {
  }

  /**
   Cutting to `HASH_LEN` characters keeps the first sixteen bytes whole, so the
   fingerprint spells exactly the digest's first sixteen bytes: for a 16-byte
   MD5 digest, nothing is lost.
   */
  lemma FinishDecodes(d: seq<byte>)
    ensures DecodeHex(Finish(d)) == Some(d[..Min(|d|, HASH_LEN / 2)])
  {
    var k := Min(|d|, HASH_LEN / 2);
    ToHexPrefix(d, k);
    DecodeUpperHex(d[..k]);
  }

  /* ---------------- what is hashed ---------------- */

  lemma {:induction false} ContentsAppend(a: seq<(Path, seq<byte>)>, b: seq<(Path, seq<byte>)>)
    ensures Contents(a + b) == Contents(a) + Contents(b)
  {
    if a != [] {
      assert (a + b)[1..] == a[1..] + b;
      ContentsAppend(a[1..], b);
    } else {
      assert a + b == b;
    }
  }

  lemma {:induction false} ContentsUnder(name: Name, fs: seq<(Path, seq<byte>)>)
    ensures Contents(Under(name, fs)) == Contents(fs)
  {
    if fs != [] {
      assert Under(name, fs)[1..] == Under(name, fs[1..]);
      ContentsUnder(name, fs[1..]);
    }
  }

  /**
   The hash context is fed exactly the contents of the regular files, in
   depth-first listing order, and nothing else: no name, no directory.
   */
  lemma {:induction false} FlattenIsContents(n: Node)
    ensures Flatten(n) == Contents(Files(n))
    decreases Size(n), 0
  {
    if n.Dir? {
      FlattenEntriesIsContents(n.entries);
    }
  }

  lemma {:induction false} FlattenEntriesIsContents(es: Listing)
    ensures FlattenEntries(es) == Contents(FilesEntries(es))
    decreases EntriesSize(es), 1
  {
    if es != [] {
      EntriesSizeCons(es);
      FlattenIsContents(es[0].1);
      FlattenEntriesIsContents(es[1..]);
      ContentsUnder(es[0].0, Files(es[0].1));
      ContentsAppend(Under(es[0].0, Files(es[0].1)), FilesEntries(es[1..]));
    }
  }

  /** Every path `Files` lists holds a regular file with the listed bytes. */
  lemma {:induction false} FilesSound(n: Node)
    requires WellFormed(n)
    ensures forall i :: 0 <= i < |Files(n)| ==> Lookup(n, Files(n)[i].0) == Some(File(Files(n)[i].1))
    decreases Size(n), 0
  {
    if n.Dir? {
      FilesEntriesSound(n.entries);
    }
  }

  lemma {:induction false} FilesEntriesSound(es: Listing)
    requires WellFormed(Dir(es))
    ensures forall i :: 0 <= i < |FilesEntries(es)| ==>
              Lookup(Dir(es), FilesEntries(es)[i].0) == Some(File(FilesEntries(es)[i].1))
    decreases EntriesSize(es), 1
  {
    if es != [] {
      EntriesSizeCons(es);
      var name, child, rest := es[0].0, es[0].1, es[1..];
      WellFormedTail(es);
      FilesSound(child);
      FilesEntriesSound(rest);
      var head := Under(name, Files(child));
      var fs := FilesEntries(es);
      assert fs == head + FilesEntries(rest);
      forall i | 0 <= i < |fs|
        ensures Lookup(Dir(es), fs[i].0) == Some(File(fs[i].1))
      {
        if i < |head| {
          var p := Files(child)[i].0;
          assert fs[i] == ([name] + p, Files(child)[i].1);
          assert ([name] + p)[1..] == p;
        } else {
          var path := FilesEntries(rest)[i - |head|].0;
          assert fs[i] == FilesEntries(rest)[i - |head|];
          assert Lookup(Dir(rest), path).Some? && path != [];
          assert Lookup(Dir(rest), path) == LookupIn(Find(rest, path[0]), path[1..]);
          assert Find(rest, path[0]).Some?;
          assert path[0] != name;
          assert Find(es, path[0]) == Find(rest, path[0]);
        }
      }
    }
  }

  /** The files below the `k`-th entry are among the files of the listing. */
  lemma {:induction false} InFilesEntries(es: Listing, k: int)
    requires 0 <= k < |es|
    ensures forall x :: x in Under(es[k].0, Files(es[k].1)) ==> x in FilesEntries(es)
    decreases k
  {
    EntriesSizeCons(es);
    assert FilesEntries(es) == Under(es[0].0, Files(es[0].1)) + FilesEntries(es[1..]);
    if k > 0 {
      assert es[1..][k - 1] == es[k];
      InFilesEntries(es[1..], k - 1);
    }
  }

  /** Every regular file of the tree is listed by `Files`, with its bytes. */
  lemma {:induction false} FilesComplete(n: Node, p: Path, b: seq<byte>)
    requires Lookup(n, p) == Some(File(b))
    ensures (p, b) in Files(n)
    decreases |p|
  {
    if p == [] {
      assert Files(n) == [([], b)];
    } else {
      var es := n.entries;
      var c := Find(es, p[0]).value;
      assert (p[0], c) in es;
      var k :| 0 <= k < |es| && es[k] == (p[0], c);
      FilesComplete(c, p[1..], b);
      var fs := Files(c);
      var i :| 0 <= i < |fs| && fs[i] == (p[1..], b);
      assert [p[0]] + p[1..] == p;
      assert Under(p[0], fs)[i] == (p, b);
      InFilesEntries(es, k);
    }
  }

  /** No path is listed twice. */
  predicate DistinctPaths(fs: seq<(Path, seq<byte>)>)
  {
    forall i, j :: 0 <= i < j < |fs| ==> fs[i].0 != fs[j].0
  }

  /** In a well-formed tree every regular file is listed once. */
  lemma {:induction false} FilesDistinct(n: Node)
    requires WellFormed(n)
    ensures DistinctPaths(Files(n))
    decreases Size(n), 0
  {
    if n.Dir? {
      FilesEntriesDistinct(n.entries);
    }
  }

  lemma {:induction false} FilesEntriesDistinct(es: Listing)
    requires WellFormed(Dir(es))
    ensures DistinctPaths(FilesEntries(es))
    decreases EntriesSize(es), 1
  {
    if es != [] {
      EntriesSizeCons(es);
      var name, child, rest := es[0].0, es[0].1, es[1..];
      WellFormedTail(es);
      FilesDistinct(child);
      FilesEntriesDistinct(rest);
      FilesEntriesSound(rest);
      var inner := Files(child);
      var head := Under(name, inner);
      var tail := FilesEntries(rest);
      var fs := FilesEntries(es);
      assert fs == head + tail;
      forall i, j | 0 <= i < j < |fs|
        ensures fs[i].0 != fs[j].0
      {
        if j < |head| {
          assert fs[i].0[1..] == inner[i].0 && fs[j].0[1..] == inner[j].0;
        } else if i >= |head| {
          assert fs[i] == tail[i - |head|] && fs[j] == tail[j - |head|];
        } else {
          var path := tail[j - |head|].0;
          assert fs[j].0 == path;
          assert Lookup(Dir(rest), path).Some? && path != [];
          assert Lookup(Dir(rest), path) == LookupIn(Find(rest, path[0]), path[1..]);
          assert Find(rest, path[0]).Some?;
          assert fs[i].0[0] == name != path[0];
        }
      }
    }
  }

  /**
   `Files` lists exactly the regular files of a tree, each once, and the hash
   input is their contents in that order.
   */
  lemma HashInputIsFileContents(n: Node)
    requires WellFormed(n)
    ensures Flatten(n) == Contents(Files(n))
    ensures forall p, b :: (p, b) in Files(n) <==> Lookup(n, p) == Some(File(b))
    ensures forall i, j :: 0 <= i < j < |Files(n)| ==> Files(n)[i].0 != Files(n)[j].0
  {
    FlattenIsContents(n);
    FilesSound(n);
    FilesDistinct(n);
    forall p, b | Lookup(n, p) == Some(File(b))
      ensures (p, b) in Files(n)
    {
      FilesComplete(n, p, b);
    }
  }

  /* ---------------- names do not count ---------------- */

  /** Two trees that differ at most in their names: same kinds, same bytes, same listing order. */
  predicate SameShape(a: Node, b: Node)
  {
    if a.File? then b.File? && a.bytes == b.bytes
    else if a.Dir? then
      && b.Dir?
      && |a.entries| == |b.entries|
      && forall i :: 0 <= i < |a.entries| ==> SameShape(a.entries[i].1, b.entries[i].1)
    else b.Other?
  }

  /** Two listings whose entries pair up, in order, into trees of the same shape. */
  predicate SameShapeEntries(es: Listing, fs: Listing)
  {
    SameShape(Dir(es), Dir(fs))
  }

  lemma {:induction false} FlattenSameShape(a: Node, b: Node)
    requires SameShape(a, b)
    ensures Flatten(a) == Flatten(b)
    decreases Size(a), 0
  {
    if a.Dir? {
      FlattenEntriesSameShape(a.entries, b.entries);
    }
  }

  lemma {:induction false} FlattenEntriesSameShape(es: Listing, fs: Listing)
    requires SameShapeEntries(es, fs)
    ensures FlattenEntries(es) == FlattenEntries(fs)
    decreases EntriesSize(es), 1
  {
    if es != [] {
      EntriesSizeCons(es);
      FlattenSameShape(es[0].1, fs[0].1);
      assert SameShapeEntries(es[1..], fs[1..]) by {
        assert forall i :: 0 <= i < |es| - 1 ==> es[1..][i] == es[i + 1] && fs[1..][i] == fs[i + 1];
      }
      FlattenEntriesSameShape(es[1..], fs[1..]);
    }
  }

  /**
   Renaming files and directories anywhere in a tree, without changing the
   listing order, leaves the fingerprint unchanged.
   */
  lemma HashIgnoresNames(a: Node, b: Node, md5: seq<byte> -> Digest)
    requires SameShape(a, b)
    ensures HashPath(a, md5) == HashPath(b, md5)
  {
    FlattenSameShape(a, b);
  }

  /**
   An empty directory, an empty file and a special file all feed no bytes,
   so they share one fingerprint: that of the empty input.
   */
  lemma HashOfNothing(md5: seq<byte> -> Digest)
    ensures HashPath(Dir([]), md5) == HashPath(File([]), md5) == HashPath(Other, md5) == Finish(md5([]))
  {
  }

  /**
   A directory holding a single entry hashes like that entry, whatever its
   name: `a.txt` and `sub/a.txt` give the same fingerprint, which is the
   digest of the file's bytes alone.
   */
  lemma HashSingleEntry(name: Name, n: Node, md5: seq<byte> -> Digest)
    ensures HashPath(Dir([(name, n)]), md5) == HashPath(n, md5)
    ensures n.File? ==> HashPath(Dir([(name, n)]), md5) == Finish(md5(n.bytes))
  {
    EntriesSizeCons([(name, n)]);
    assert [(name, n)][1..] == [];
    assert Flatten(Dir([(name, n)])) == Flatten(n) + FlattenEntries([]) == Flatten(n);
  }
}

=== FILE: wrappers.dfy ===
/** The optional value used for lookups and for the error slot of a walk. */
module Wrappers {

  datatype Option<+T> = None | Some(value: T)
}
